=== FILE: README.md ===
# Polly text-to-speech action, modelled in Dafny

This project models the Adobe I/O Runtime action `actions/polly/index.js`. The action is a
text-to-speech proxy. Given a `text`, it answers with two links: one to an MP3 of the text
spoken by the Polly voice "Joey" (neural engine), and one to a JSON array of word timings
("speech marks"). Results are cached in the action's file store, addressed by the MD5 hex
digest of the text. Repeating a text reuses the stored artifacts instead of calling the
paid synthesis backend again.

The model has these modules:

- `SpeechMarks` (`marks.dfy`): the normaliser. It replaces every `}`-newline-`{` in the
  backend's newline-delimited JSON stream with `},{` and wraps the result in `[` `]`.
  The replace step is the recursive `ReplaceJoins`, which scans left to right like the
  global regular-expression replace. It is checked against a character-wise reference
  definition (`ExpectedAt`) and against the record-stream shape the backend produces.
- `ArtifactPaths` (`paths.dfy`): `tts/<key>-voice.mp3` and `tts/<key>-marks.json`. Its
  partner is `ParsePath`, which reads the kind and key back from a path.
- `ArtifactStore` (`store.dfy`): the store as a `map<string, Content>`, plus the listing
  the action uses to test whether a file exists.
- `Synthesis` (`synthesis.dfy`): the two synthesis requests of lines 44-60.
- `PollyAction` (`action.dfy`): `main` as pure functions over the hash and an environment
  `Env`. The hash is one parameter shared by every request, as MD5 is a fixed function.
  `Env` holds the other external services of one request: the store's failures, the
  backend, link issuance, UTF-8 decoding and the 400 message of the input check. UTF-8
  decoding is a fixed function too; it sits in `Env` for convenience, and no claim about
  several requests depends on it.
  Handling a request returns the response, the new store and the ordered trace of
  external calls. Ordering claims such as "no write before both syntheses" are
  predicates over that trace.
- `CacheProperties` (`cache_properties.dfy`): properties that relate several calls or
  several requests. These cover the fast path, the miss path, failures, repeated
  requests and the half-pair consequences of line 68.

Line 68 reads `await fileExists(files, voicepath) && fileExists(files, markspath)`. The
second call is not awaited, so its value is a Promise, and a Promise is always truthy. As
written, a request is therefore a hit exactly when the voice artifact is listed. Because
`&&` short-circuits, the marks listing is issued only when the voice artifact is found, and
then its answer and its failure are both ignored. The orchestrator
takes a `CachePolicy` parameter:

- `VoiceOnly` is the code as written.
- `BothArtifacts` awaits both listings, which is evidently what was intended.

Every general property below is proved for both policies. The lemmas about line 68 say
where the two policies differ.

The code departs from the evidently intended design in three places. The model follows the code:

- The cache check looks at the voice artifact only (see Findings).
- The two writes are not atomic. A failing marks write leaves a voice-only pair behind
  (`MarksWriteFailureLeavesHalfPair`).
- The normaliser is purely textual and cannot fail. There is no normalisation fault.

## Model

| member | source | states |
|---|---|---|
| SpeechMarks.ReplaceJoins | actions/polly/index.js:77-78 | the global replace of `}`-newline-`{` by `},{` keeps the length of its input (pattern and replacement are both three characters) |
| SpeechMarks.ReplaceJoinsPointwise | actions/polly/index.js:77-78 | the replace agrees at every position with the reference definition: the newline in the middle of each join becomes a comma, every other character is kept |
| SpeechMarks.ReplaceJoinsRemovesJoins | actions/polly/index.js:77-78 | no `}`-newline-`{` is left after the replace |
| SpeechMarks.ReplaceJoinsIdentityIff | actions/polly/index.js:77-78 | the replace leaves its input unchanged if and only if the input contains no join |
| SpeechMarks.Normalize | actions/polly/index.js:76-79 | the marks document is two characters longer than the stream, starts with `[`, ends with `]`, holds the stream with each join's newline turned into a comma, and contains no join; a stream without a join is only bracketed |
| SpeechMarks.NormalizeEmpty | actions/polly/index.js:76-79 | an empty stream becomes `[]` |
| SpeechMarks.NormalizeWrapsJoinFreeText | actions/polly/index.js:76-79 | a stream without a join, such as a single record, is only wrapped in brackets |
| SpeechMarks.ReplaceJoinsOnRecords | actions/polly/index.js:77-78 | one-line JSON records separated by newlines become the same records separated by commas |
| SpeechMarks.ReplaceJoinsOnLines | actions/polly/index.js:77-78 | newline-terminated records become comma-separated records followed by one newline |
| SpeechMarks.NormalizeRecords | actions/polly/index.js:76-79 | newline-separated records normalise to the JSON array of exactly those records, in order |
| SpeechMarks.NormalizeRecordLines | actions/polly/index.js:76-79 | newline-terminated records normalise to the array of those records, with a newline before `]` |
| ArtifactPaths.PathLayout | actions/polly/index.js:66-67 | a derived path is `tts/`, then exactly the key, then the kind's suffix |
| ArtifactPaths.ParsePath | actions/polly/index.js:66-67 | any path the parser accepts is the derived path of the kind and key it returns |
| ArtifactPaths.ParsePathOf | actions/polly/index.js:66-67 | parsing the derived voice or marks path of a key gives back that kind and key |
| ArtifactPaths.PathOfInjective | actions/polly/index.js:66-67 | two derived paths are equal if and only if kind and key are both equal |
| ArtifactPaths.VoicePathInjective | actions/polly/index.js:66 | the voice path of a key determines the key |
| ArtifactPaths.MarksPathInjective | actions/polly/index.js:67 | the marks path of a key determines the key |
| ArtifactPaths.VoicePathNeverMarksPath | actions/polly/index.js:66-67 | a voice path never equals a marks path, for any two keys |
| ArtifactStore.List | actions/polly/index.js:108 | listing a file path gives at most that path, and something exactly when a file is stored there |
| Synthesis.VoiceRequest | actions/polly/index.js:44-49 | the audio request carries the text, MP3 output, voice `Joey`, engine `neural` and no speech-mark filter |
| Synthesis.MarksRequest | actions/polly/index.js:52-60 | the marks request carries the text, JSON output, the same voice and engine as the audio request, and the `word` filter |
| Synthesis.RequestsShareVoiceConfig | actions/polly/index.js:44-60 | both requests carry the text, voice `Joey` and engine `neural`, and differ only in output format and the `word` speech-mark filter |
| Synthesis.RequestsDetermineText | actions/polly/index.js:44-60 | requests for two texts coincide only when the texts do, and an audio request is never a marks request |
| PollyAction.TextPresent | actions/polly/index.js:26-32 | an absent or empty `text` counts as missing; a present one is a non-empty string |
| PollyAction.FileExists | actions/polly/index.js:107-110 | a listing that throws is a fault; otherwise the answer is true exactly when a file is stored at the path |
| PollyAction.CheckCache | actions/polly/index.js:68 | the store is not changed and only the pair's paths are listed; the check reports a hit or a miss exactly as the decision table says, and as written that table ignores the marks artifact; the marks path is listed if and only if the voice listing succeeded and found the file |
| PollyAction.AudioArtifact | actions/polly/index.js:73-75 | the audio artifact is the backend's audio stream, unchanged |
| PollyAction.MarksArtifact | actions/polly/index.js:74-79 | the marks artifact is the decoded stream in brackets, with each join's newline turned into a comma and every other character kept; no join is left, and a stream without a join is only bracketed |
| PollyAction.Fill | actions/polly/index.js:73-79 | the audio synthesis comes first; if it fails, the request stops there and the marks synthesis is never asked for; if the marks synthesis fails, nothing follows it; on success each synthesis is called once and both precede any write; only the pair's paths are written; if either synthesis fails, nothing is written; on success the voice path holds the audio and the marks path holds the normalised marks |
| PollyAction.IssueLinks | actions/polly/index.js:84-85 | the store is not changed; links are requested only for the pair's paths with a 60-second expiry; the result holds the two issued links |
| PollyAction.Persist | actions/polly/index.js:75-79 | only the pair's paths are written, and the first write is the audio; success means both writes succeeded and the store gains exactly the two artifacts; a failing audio write changes nothing; a failing marks write leaves exactly the audio added and the marks path as it was |
| PollyAction.Complete | actions/polly/index.js:69-85 | after the cache decision: on a hit nothing is synthesized or written and the store is unchanged; on a miss whose audio synthesis fails, that one call is the whole trace and the store is unchanged; on a successful miss both artifacts are stored; writes follow both syntheses and links are only for the pair |
| PollyAction.Serve | actions/polly/index.js:34-93 | the store is first connected to, and a failing connection is the whole request; a failing connection or listing ends the request as a fault with no synthesis, no write and the store unchanged; nothing outside the pair changes; every write follows both syntheses; on success the voice artifact (and, under the intended check, the marks artifact) is stored and the result holds the links for the pair |
| PollyAction.Respond | actions/polly/index.js:87-102 | success gives 200 with the voice and marks links; every fault gives 500 `server error` |
| PollyAction.Handle | actions/polly/index.js:14-104 | a missing text gives 400 with no external call and no store change; a failing connection or listing gives 500 `server error` with no synthesis, no write and the store unchanged; otherwise the status is 200 or 500, only the pair may change, writes follow both syntheses, and a 200 carries the links issued for the pair's paths |
| CacheProperties.HitIsReadOnly | actions/polly/index.js:68-85 | on a hit, no synthesis call and no write are made, the store is unchanged, and the answer is 200 exactly when both links are issued |
| CacheProperties.MissWritesBothArtifacts | actions/polly/index.js:69-85 | on a miss with working backend and store, the new store is the old one with exactly the audio and the normalised marks written at the pair's paths |
| CacheProperties.SynthesisFailureWritesNothing | actions/polly/index.js:73-79 | if either synthesis call fails on a miss, nothing is written, the store is unchanged and the answer is 500 `server error` |
| CacheProperties.VoiceSynthesisFailureSkipsMarks | actions/polly/index.js:73-74 | when the audio synthesis fails, the marks synthesis is never asked for, nothing is written, the store is unchanged, and on a miss the answer is 500 |
| CacheProperties.StoreFaultsGive500 | actions/polly/index.js:65-68 | when connecting to the store or a listing the check awaits throws, the request answers 500 `server error`, synthesizes nothing, writes nothing and leaves the store unchanged |
| CacheProperties.AudioWriteFailureGives500 | actions/polly/index.js:75 | on a miss whose audio write throws, the answer is 500 and the store is unchanged |
| CacheProperties.FaultsLookAlike | actions/polly/index.js:98-102 | every fault gives the same 500 response, whatever its kind |
| CacheProperties.RepeatedRequestHits | actions/polly/index.js:64-85 | after a successful request, a second request for the same text makes no synthesis call and no write and links only the same two paths |
| CacheProperties.VoiceOnlyIgnoresMarks | actions/polly/index.js:68 | as written, two stores that agree on the voice artifact get the same cache decision, whatever the marks artifact |
| CacheProperties.PoliciesDisagreeOnlyOnHalfPair | actions/polly/index.js:68 | with listings answering, the as-written and intended checks disagree exactly when the voice artifact is present and the marks artifact is absent |
| CacheProperties.MarksWriteFailureLeavesHalfPair | actions/polly/index.js:75-76 | a marks write that fails after the audio write leaves the voice artifact without its marks, and the answer is 500 |
| CacheProperties.HalfPairIsPermanent | actions/polly/index.js:68 | as written, once a half pair exists, no sequence of requests for that text ever changes the store, so the marks artifact stays missing |
| CacheProperties.HalfPairHealsWhenBothChecked | actions/polly/index.js:68-79 | under the intended check, a request on a half pair synthesizes both artifacts again and completes the pair |
| CacheProperties.ColdRequest | actions/polly/index.js:64-93 | on an empty store, a healthy request lists the voice path, synthesizes audio then marks, writes audio then marks, issues the voice then the marks link, and answers 200 with exactly the pair stored |
| CacheProperties.WarmRequest | actions/polly/index.js:68-93 | with both artifacts stored, a healthy request only lists the two paths and issues the two links, leaves the store unchanged and answers 200 |

## Findings

| source | as written | input that shows it | evidently intended | confidence | as-written member | corrected member |
|---|---|---|---|---|---|---|
| actions/polly/index.js:68 | `await fileExists(files, voicepath) && fileExists(files, markspath)`: the marks check is not awaited, so it is a Promise and always truthy | a store holding `tts/<key>-voice.mp3` but not `tts/<key>-marks.json`, which a failed marks write leaves behind: every later request is a hit and links a marks file that does not exist | `await` both checks, so that a half pair is a miss and is synthesized again | high; not executed | CacheProperties.HalfPairIsPermanent | CacheProperties.HalfPairHealsWhenBothChecked |

## Left out

- Logging (lines 16, 20, 23, 71, 81, 96, 100) does not affect behaviour and is not modelled.
- Construction of the Polly client and its credentials (lines 36-41) is not modelled. The
  synthesis call is the `Env.synthesize` parameter, which may fail.
- MD5 (RFC 1321) via Node's `crypto` is a foreign call. The key is given by the
  uninterpreted `fingerprint` parameter, which every request of a lemma shares. Nothing
  assumes it is collision-free.
- `@adobe/aio-lib-files` (`init`, `list`, `write`, `generatePresignURL`) does network
  I/O. The store is a map. Whether a call throws is given by `Env` fields: `listFails`
  and `writeFails` are functions of the path, and `initFails` is a flag. A write that fails after
  storing part of its content is not modelled.
- Link issuance is `Env.presign`, a function of the path and expiry in each request's
  environment. Two requests may receive different links, but nothing forces them to
  differ, and real-time expiry is not modelled. The 60-second lifetime is
  recorded only as `LinkRequest.expiryInSeconds`.
- UTF-8 decoding of the marks `AudioStream` is the uninterpreted `Env.decodeUtf8`. The
  audio stream is opaque bytes. Encoding the marks string back to bytes when it is
  written is not modelled; the store holds it as text.
- `checkMissingRequestInputs` and `errorResponse` live in `actions/utils`, which is not
  part of this model. `text` counts as missing when it is absent or empty. The 400
  message is the parameter `Env.missingInputsMessage`, and a response is a status code
  and a body.
- A `text` that is not a string makes the hash update throw. This is not modelled: the
  text is a string.
- The un-awaited marks listing of line 68 can reject. That rejection happens outside the
  request's `try` block, and so does whatever the runtime does with an unhandled
  rejection. The model drops it.
- Full JSON validity of the marks document (RFC 8259, section 5) is not modelled. The code
  makes only a textual edit, and only that edit is modelled.
- Concurrent requests for the same text are not modelled. Each request runs alone, one
  after another.

=== FILE: action.dfy ===
/**
 * The Polly action (actions/polly/index.js, `main`, lines 14-104, and `fileExists`,
 * lines 107-110): a read-through cache in front of a speech-synthesis backend.
 *
 * A request is handled in one pass: hash the text to a key, derive the two artifact
 * paths, ask the store whether the pair is cached, on a miss synthesize audio and
 * word timings and write both artifacts, then issue one expiring link per artifact.
 *
 * The hash is a parameter of its own, shared by every request, since MD5 is a fixed
 * function. Every other external service is a field of the per-request `Env`: the
 * store's failures, the backend, the UTF-8 decoder and link issuance. Each handled
 * request returns the new store and the trace of the external calls it issued, in
 * order, so that claims about ordering ("no write before both syntheses") can be
 * stated and proved.
 *
 * The cache check of line 68 awaits only the voice check; the marks check is started
 * but never awaited, and an unawaited promise is truthy. `CachePolicy.VoiceOnly` is
 * that behaviour; `CachePolicy.BothArtifacts` is the check evidently intended, which
 * awaits both. Everything below is stated for both policies.
 */
module PollyAction {
  import opened Results
  import opened ArtifactStore
  import opened ArtifactPaths
  import opened SpeechMarks
  import opened Synthesis

  /** Lifetime of every issued link. */
  const LinkExpirySeconds: nat := 60

  /** The one message every downstream failure is reported with. */
  const ServerError: string := "server error"

  /** The action's input; only `text` matters to the core. */
  datatype Params = Params(text: Option<string>)

  /** The required `text` parameter is given and not empty. */
  function TextPresent(params: Params): (present: bool)
    ensures params.text.None? ==> !present
    ensures params.text.Some? && |params.text.value| == 0 ==> !present
    ensures present ==> params.text.Some? && |params.text.value| > 0
  {
    params.text.Some? && params.text.value != ""
  }

  datatype LinkRequest = LinkRequest(path: string, expiryInSeconds: nat)

  /**
   * The external services of one request. A `...Fails` field says whether that call
   * throws; `synthesize` and `presign` yield `None` when the call throws. UTF-8
   * decoding is a fixed function kept here for convenience; no claim about several
   * requests depends on it. `missingInputsMessage` is the 400 message produced by the
   * input check.
   */
  datatype Env = Env(
    initFails: bool,
    listFails: string -> bool,
    synthesize: SynthesisRequest -> Option<seq<byte>>,
    decodeUtf8: seq<byte> -> string,
    writeFails: string -> bool,
    presign: LinkRequest -> Option<string>,
    missingInputsMessage: string)

  /** Why a request failed after its input was accepted. */
  datatype Fault =
    | InitFailed
    | ListFailed(path: string)
    | SynthesisFailed(request: SynthesisRequest)
    | WriteFailed(path: string)
    | LinkFailed(path: string)

  /** One external call issued by the action. */
  datatype Effect =
    | Connected
    | Listed(path: string)
    | Synthesized(request: SynthesisRequest)
    | Wrote(path: string, content: Content)
    | Presigned(link: LinkRequest)

  /** A stage of the request: its result, the store after it, and the calls it issued. */
  datatype Step<+T> = Step(result: Result<T, Fault>, store: Store, trace: seq<Effect>)

  datatype CachePolicy = VoiceOnly | BothArtifacts

  datatype Links = Links(voice: string, marks: string)

  datatype Body = LinksBody(voice: string, marks: string) | ErrorBody(message: string)

  datatype Response = Response(statusCode: nat, body: Body)

  /** Everything a handled request leaves behind. */
  datatype Outcome = Outcome(response: Response, store: Store, trace: seq<Effect>)

  // ---------------------------------------------------------------------------
  // Properties of traces
  // ---------------------------------------------------------------------------

  ghost predicate NoSynthesis(trace: seq<Effect>)
  {
    forall e :: e in trace ==> !e.Synthesized?
  }

  ghost predicate NoWrites(trace: seq<Effect>)
  {
    forall e :: e in trace ==> !e.Wrote?
  }

  /** Every write in the trace goes to one of `paths`. */
  ghost predicate WritesOnlyTo(trace: seq<Effect>, paths: set<string>)
  {
    forall e :: e in trace && e.Wrote? ==> e.path in paths
  }

  /** Every write comes after both synthesis calls for `text` have completed. */
  ghost predicate SynthesisBeforeWrites(trace: seq<Effect>, text: string)
  {
    forall i :: 0 <= i < |trace| && trace[i].Wrote? ==>
      Synthesized(VoiceRequest(text)) in trace[..i] && Synthesized(MarksRequest(text)) in trace[..i]
  }

  /** Every link issued is for one of the pair's paths, with the fixed lifetime. */
  ghost predicate LinksOnlyFor(trace: seq<Effect>, key: string)
  {
    forall e :: e in trace && e.Presigned? ==>
      e.link == LinkRequest(VoicePath(key), LinkExpirySeconds) || e.link == LinkRequest(MarksPath(key), LinkExpirySeconds)
  }

  lemma SynthesisBeforeWritesAppend(a: seq<Effect>, b: seq<Effect>, text: string)
    requires SynthesisBeforeWrites(a, text) && SynthesisBeforeWrites(b, text)
    ensures SynthesisBeforeWrites(a + b, text)
  {
    var t := a + b;
    forall i | 0 <= i < |t| && t[i].Wrote?
      ensures Synthesized(VoiceRequest(text)) in t[..i] && Synthesized(MarksRequest(text)) in t[..i]
    {
      if i < |a| {
        assert t[..i] == a[..i];
      } else {
        assert t[i] == b[i - |a|];
        assert t[..i] == a + b[..i - |a|];
      }
    }
  }

  // ---------------------------------------------------------------------------
  // The stages of a request
  // ---------------------------------------------------------------------------

  /** `fileExists`: an object is listed at `path`. A failing listing is a fault. */
  function FileExists(env: Env, store: Store, path: string): (r: Result<bool, Fault>)
    ensures r.Failure? <==> env.listFails(path)
    ensures r.Success? ==> (r.value <==> path in store)
  {
    if env.listFails(path) then Failure(ListFailed(path))
    else Success(|List(store, path)| > 0)
  }

  /** The cache check reports a hit for `key`. */
  ghost predicate ReportsHit(policy: CachePolicy, env: Env, store: Store, key: string)
  {
    && !env.listFails(VoicePath(key))
    && VoicePath(key) in store
    && (policy == BothArtifacts ==> !env.listFails(MarksPath(key)) && MarksPath(key) in store)
  }

  /**
   * The store fails before any synthesis: connecting throws, the voice listing throws,
   * or, under the intended check, the marks listing throws after the voice artifact
   * was found.
   */
  ghost predicate StoreFault(policy: CachePolicy, env: Env, store: Store, key: string)
  {
    || env.initFails
    || env.listFails(VoicePath(key))
    || (policy == BothArtifacts && VoicePath(key) in store && env.listFails(MarksPath(key)))
  }

  /** The cache check reports a miss for `key`. */
  ghost predicate ReportsMiss(policy: CachePolicy, env: Env, store: Store, key: string)
  {
    && !env.listFails(VoicePath(key))
    && (VoicePath(key) !in store
        || (policy == BothArtifacts && !env.listFails(MarksPath(key)) && MarksPath(key) !in store))
  }

  /**
   * Line 68. The voice listing is awaited. When it finds the voice artifact, the
   * marks listing is issued too; under `VoiceOnly` its promise is never awaited, so
   * neither its answer nor its failure reaches the decision.
   */
  function CheckCache(policy: CachePolicy, env: Env, store: Store, key: string): (check: Step<bool>)
    ensures check.store == store
    ensures check.trace == [Listed(VoicePath(key))] || check.trace == [Listed(VoicePath(key)), Listed(MarksPath(key))]
    ensures |check.trace| == 2 <==> !env.listFails(VoicePath(key)) && VoicePath(key) in store
    ensures check.result == Success(true) <==> ReportsHit(policy, env, store, key)
    ensures check.result == Success(false) <==> ReportsMiss(policy, env, store, key)
  {
    var voicePath := VoicePath(key);
    var marksPath := MarksPath(key);
    var voice := FileExists(env, store, voicePath);
    if voice.Failure? then Step(Failure(voice.error), store, [Listed(voicePath)])
    else if !voice.value then Step(Success(false), store, [Listed(voicePath)])
    else
      var trace := [Listed(voicePath), Listed(marksPath)];
      match policy
      case VoiceOnly => Step(Success(true), store, trace)
      case BothArtifacts => Step(FileExists(env, store, marksPath), store, trace)
  }

  /** The audio artifact written for `text` when synthesis succeeds. */
  function AudioArtifact(env: Env, text: string): (audio: Content)
    requires env.synthesize(VoiceRequest(text)).Some?
    ensures audio.Bytes? && Some(audio.data) == env.synthesize(VoiceRequest(text))
  {
    Bytes(env.synthesize(VoiceRequest(text)).value)
  }

  /** The marks artifact written for `text`: the backend's stream, normalised. */
  function MarksArtifact(env: Env, text: string): (doc: Content)
    requires env.synthesize(MarksRequest(text)).Some?
    ensures var stream := env.decodeUtf8(env.synthesize(MarksRequest(text)).value);
      && doc.Text? && |doc.chars| == |stream| + 2
      && doc.chars[0] == '[' && doc.chars[|doc.chars| - 1] == ']'
      && (forall i :: 0 <= i < |stream| ==> doc.chars[i + 1] == ExpectedAt(stream, i))
      && !ContainsLineJoin(doc.chars)
      && (!ContainsLineJoin(stream) ==> doc.chars == "[" + stream + "]")
  {
    Text(Normalize(env.decodeUtf8(env.synthesize(MarksRequest(text)).value)))
  }

  /** Both synthesis calls for `text` succeed. */
  ghost predicate SynthesisSucceeds(env: Env, text: string)
  {
    env.synthesize(VoiceRequest(text)).Some? && env.synthesize(MarksRequest(text)).Some?
  }

  /**
   * Lines 75-79: write the audio, then the marks document. A failing write aborts;
   * when the second write fails, the first has already taken effect.
   */
  function Persist(env: Env, store: Store, key: string, audio: Content, doc: Content): (persist: Step<()>)
    ensures NoSynthesis(persist.trace)
    ensures |persist.trace| > 0 && persist.trace[0] == Wrote(VoicePath(key), audio)
    ensures WritesOnlyTo(persist.trace, {VoicePath(key), MarksPath(key)})
    ensures SameOutside(store, persist.store, {VoicePath(key), MarksPath(key)})
    ensures persist.result.Success? <==> !env.writeFails(VoicePath(key)) && !env.writeFails(MarksPath(key))
    ensures persist.result.Success? ==>
      && VoicePath(key) in persist.store && persist.store[VoicePath(key)] == audio
      && MarksPath(key) in persist.store && persist.store[MarksPath(key)] == doc
    ensures !env.writeFails(VoicePath(key)) ==> VoicePath(key) in persist.store && persist.store[VoicePath(key)] == audio
    ensures env.writeFails(VoicePath(key)) ==> persist.store == store
    ensures !env.writeFails(VoicePath(key)) && env.writeFails(MarksPath(key)) ==>
      persist.store == store[VoicePath(key) := audio]
    ensures persist.result.Success? ==> persist.store == store[VoicePath(key) := audio][MarksPath(key) := doc]
  {
    var voicePath := VoicePath(key);
    var marksPath := MarksPath(key);
    VoicePathNeverMarksPath(key, key);
    if env.writeFails(voicePath) then
      Step(Failure(WriteFailed(voicePath)), store, [Wrote(voicePath, audio)])
    else if env.writeFails(marksPath) then
      Step(Failure(WriteFailed(marksPath)), store[voicePath := audio], [Wrote(voicePath, audio), Wrote(marksPath, doc)])
    else
      Step(Success(()), store[voicePath := audio][marksPath := doc], [Wrote(voicePath, audio), Wrote(marksPath, doc)])
  }

  /** Writes that follow both synthesis calls satisfy the ordering claim. */
  lemma SynthesisBeforeWritesAfterBoth(text: string, rest: seq<Effect>)
    ensures SynthesisBeforeWrites([Synthesized(VoiceRequest(text)), Synthesized(MarksRequest(text))] + rest, text)
  {
    var head := [Synthesized(VoiceRequest(text)), Synthesized(MarksRequest(text))];
    var t := head + rest;
    forall i | 0 <= i < |t| && t[i].Wrote?
      ensures Synthesized(VoiceRequest(text)) in t[..i] && Synthesized(MarksRequest(text)) in t[..i]
    {
      assert i >= 2;
      assert t[..i][0] == head[0] && t[..i][1] == head[1];
    }
  }

  /**
   * Lines 73-79, the miss path: synthesize audio, then marks, then persist both.
   * The first failure aborts the rest.
   */
  function Fill(env: Env, store: Store, text: string, key: string): (fill: Step<()>)
    ensures |fill.trace| > 0 && fill.trace[0] == Synthesized(VoiceRequest(text))
    ensures env.synthesize(VoiceRequest(text)).None? ==> fill.trace == [Synthesized(VoiceRequest(text))]
    ensures env.synthesize(VoiceRequest(text)).Some? && env.synthesize(MarksRequest(text)).None? ==>
      fill.trace == [Synthesized(VoiceRequest(text)), Synthesized(MarksRequest(text))]
    ensures SynthesisSucceeds(env, text) ==>
      && |fill.trace| > 2
      && fill.trace[..2] == [Synthesized(VoiceRequest(text)), Synthesized(MarksRequest(text))]
      && NoSynthesis(fill.trace[2..])
    ensures SynthesisBeforeWrites(fill.trace, text)
    ensures WritesOnlyTo(fill.trace, {VoicePath(key), MarksPath(key)})
    ensures SameOutside(store, fill.store, {VoicePath(key), MarksPath(key)})
    ensures !SynthesisSucceeds(env, text) ==> fill.result.Failure? && fill.store == store && NoWrites(fill.trace)
    ensures fill.result.Success? <==>
      SynthesisSucceeds(env, text) && !env.writeFails(VoicePath(key)) && !env.writeFails(MarksPath(key))
    ensures fill.result.Success? ==>
      && VoicePath(key) in fill.store && fill.store[VoicePath(key)] == AudioArtifact(env, text)
      && MarksPath(key) in fill.store && fill.store[MarksPath(key)] == MarksArtifact(env, text)
  {
    var voiceRequest := VoiceRequest(text);
    var marksRequest := MarksRequest(text);
    if env.synthesize(voiceRequest).None? then
      Step(Failure(SynthesisFailed(voiceRequest)), store, [Synthesized(voiceRequest)])
    else if env.synthesize(marksRequest).None? then
      Step(Failure(SynthesisFailed(marksRequest)), store, [Synthesized(voiceRequest), Synthesized(marksRequest)])
    else
      var persist := Persist(env, store, key, AudioArtifact(env, text), MarksArtifact(env, text));
      SynthesisBeforeWritesAfterBoth(text, persist.trace);
      Step(persist.result, persist.store, [Synthesized(voiceRequest), Synthesized(marksRequest)] + persist.trace)
  }

  /** Lines 84-85: one fresh link per artifact, each valid for 60 seconds. */
  function IssueLinks(env: Env, store: Store, key: string): (issue: Step<Links>)
    ensures issue.store == store
    ensures NoSynthesis(issue.trace) && NoWrites(issue.trace)
    ensures LinksOnlyFor(issue.trace, key)
    ensures issue.result.Success? <==>
      env.presign(LinkRequest(VoicePath(key), LinkExpirySeconds)).Some?
      && env.presign(LinkRequest(MarksPath(key), LinkExpirySeconds)).Some?
    ensures issue.result.Success? ==>
      && Some(issue.result.value.voice) == env.presign(LinkRequest(VoicePath(key), LinkExpirySeconds))
      && Some(issue.result.value.marks) == env.presign(LinkRequest(MarksPath(key), LinkExpirySeconds))
  {
    var voiceLink := LinkRequest(VoicePath(key), LinkExpirySeconds);
    var marksLink := LinkRequest(MarksPath(key), LinkExpirySeconds);
    match env.presign(voiceLink)
    case None => Step(Failure(LinkFailed(voiceLink.path)), store, [Presigned(voiceLink)])
    case Some(voice) =>
      match env.presign(marksLink)
      case None => Step(Failure(LinkFailed(marksLink.path)), store, [Presigned(voiceLink), Presigned(marksLink)])
      case Some(marks) => Step(Success(Links(voice, marks)), store, [Presigned(voiceLink), Presigned(marksLink)])
  }

  /**
   * Lines 69-85 once the cache has answered: fill the pair on a miss, then issue the
   * links. A fault at any point aborts the rest.
   */
  function Complete(env: Env, store: Store, text: string, key: string, hit: bool): (run: Step<Links>)
    ensures SameOutside(store, run.store, {VoicePath(key), MarksPath(key)})
    ensures SynthesisBeforeWrites(run.trace, text)
    ensures WritesOnlyTo(run.trace, {VoicePath(key), MarksPath(key)})
    ensures LinksOnlyFor(run.trace, key)
    ensures hit ==> run.store == store && NoSynthesis(run.trace) && NoWrites(run.trace)
    ensures !hit && env.synthesize(VoiceRequest(text)).None? ==>
      run.result.Failure? && run.store == store && run.trace == [Synthesized(VoiceRequest(text))]
    ensures run.result.Success? && !hit ==> VoicePath(key) in run.store && MarksPath(key) in run.store
    ensures run.result.Success? ==>
      && Some(run.result.value.voice) == env.presign(LinkRequest(VoicePath(key), LinkExpirySeconds))
      && Some(run.result.value.marks) == env.presign(LinkRequest(MarksPath(key), LinkExpirySeconds))
  {
    if hit then
      var issue := IssueLinks(env, store, key);
      assert SynthesisBeforeWrites(issue.trace, text);
      issue
    else
      var fill := Fill(env, store, text, key);
      if fill.result.Failure? then Step(Failure(fill.result.error), fill.store, fill.trace)
      else
        var issue := IssueLinks(env, fill.store, key);
        SynthesisBeforeWritesAppend(fill.trace, issue.trace, text);
        Step(issue.result, fill.store, fill.trace + issue.trace)
  }

  /** Lines 34-93 after the input check: the whole read-through cache for `text`. */
  function Serve(policy: CachePolicy, fingerprint: string -> string, env: Env, store: Store, text: string): (run: Step<Links>)
    ensures var key := fingerprint(text);
      && |run.trace| > 0 && run.trace[0] == Connected
      && SameOutside(store, run.store, {VoicePath(key), MarksPath(key)})
      && SynthesisBeforeWrites(run.trace, text)
      && WritesOnlyTo(run.trace, {VoicePath(key), MarksPath(key)})
      && LinksOnlyFor(run.trace, key)
      && (run.result.Success? ==>
            && VoicePath(key) in run.store
            && (policy == BothArtifacts ==> MarksPath(key) in run.store)
            && Some(run.result.value.voice) == env.presign(LinkRequest(VoicePath(key), LinkExpirySeconds))
            && Some(run.result.value.marks) == env.presign(LinkRequest(MarksPath(key), LinkExpirySeconds)))
    ensures env.initFails ==> run == Step(Failure(InitFailed), store, [Connected])
    ensures StoreFault(policy, env, store, fingerprint(text)) ==>
      run.result.Failure? && run.store == store && NoSynthesis(run.trace) && NoWrites(run.trace)
  {
    var key := fingerprint(text);
    if env.initFails then Step(Failure(InitFailed), store, [Connected])
    else
      var check := CheckCache(policy, env, store, key);
      var checked := [Connected] + check.trace;
      assert NoSynthesis(checked) && NoWrites(checked) && LinksOnlyFor(checked, key);
      if check.result.Failure? then Step(Failure(check.result.error), store, checked)
      else
        var rest := Complete(env, store, text, key, check.result.value);
        SynthesisBeforeWritesAppend(checked, rest.trace, text);
        Step(rest.result, rest.store, checked + rest.trace)
  }

  /** Lines 87-102: success becomes 200 with both links; any fault becomes a uniform 500. */
  function Respond(result: Result<Links, Fault>): (response: Response)
    ensures response.statusCode == 200 <==> result.Success?
    ensures result.Success? ==> response.body == LinksBody(result.value.voice, result.value.marks)
    ensures result.Failure? ==> response == Response(500, ErrorBody(ServerError))
  {
    match result
    case Success(links) => Response(200, LinksBody(links.voice, links.marks))
    case Failure(_) => Response(500, ErrorBody(ServerError))
  }

  /**
   * `main`: a missing `text` is answered with 400 before any external call; every
   * other request is served and its result mapped to a response.
   */
  function Handle(policy: CachePolicy, fingerprint: string -> string, env: Env, store: Store, params: Params): (outcome: Outcome)
    ensures !TextPresent(params) ==>
      outcome == Outcome(Response(400, ErrorBody(env.missingInputsMessage)), store, [])
    ensures outcome.response.statusCode in {200, 400, 500}
    ensures outcome.response.statusCode == 500 ==> outcome.response.body == ErrorBody(ServerError)
    ensures TextPresent(params) ==>
      var text := params.text.value;
      var key := fingerprint(text);
      && outcome.response.statusCode != 400
      && SameOutside(store, outcome.store, {VoicePath(key), MarksPath(key)})
      && SynthesisBeforeWrites(outcome.trace, text)
      && WritesOnlyTo(outcome.trace, {VoicePath(key), MarksPath(key)})
      && LinksOnlyFor(outcome.trace, key)
      && (outcome.response.statusCode == 200 ==>
            && outcome.response.body.LinksBody?
            && Some(outcome.response.body.voice) == env.presign(LinkRequest(VoicePath(key), LinkExpirySeconds))
            && Some(outcome.response.body.marks) == env.presign(LinkRequest(MarksPath(key), LinkExpirySeconds)))
    ensures TextPresent(params) && StoreFault(policy, env, store, fingerprint(params.text.value)) ==>
      && outcome.response == Response(500, ErrorBody(ServerError))
      && outcome.store == store
      && NoSynthesis(outcome.trace) && NoWrites(outcome.trace)
  {
    if !TextPresent(params) then
      Outcome(Response(400, ErrorBody(env.missingInputsMessage)), store, [])
    else
      var run := Serve(policy, fingerprint, env, store, params.text.value);
      Outcome(Respond(run.result), run.store, run.trace)
  }
}

=== FILE: cache_properties.dfy ===
/**
 * Claims about the read-through cache of the Polly action that relate several
 * calls or several requests: the fast path, the miss path, failures, repeated
 * requests, and the consequences of the cache check on line 68.
 */
module CacheProperties {
  import opened Results
  import opened ArtifactStore
  import opened ArtifactPaths
  import opened Synthesis
  import opened PollyAction

  /** A cache hit issues no synthesis call and no write and leaves the store as it was. */
  lemma HitIsReadOnly(policy: CachePolicy, fingerprint: string -> string, env: Env, store: Store, text: string)
    requires text != "" && !env.initFails
    requires ReportsHit(policy, env, store, fingerprint(text))
    ensures var outcome := Handle(policy, fingerprint, env, store, Params(Some(text)));
      && outcome.store == store
      && NoSynthesis(outcome.trace)
      && NoWrites(outcome.trace)
      && (outcome.response.statusCode == 200 <==>
            env.presign(LinkRequest(VoicePath(fingerprint(text)), LinkExpirySeconds)).Some?
            && env.presign(LinkRequest(MarksPath(fingerprint(text)), LinkExpirySeconds)).Some?)
  {
    var key := fingerprint(text);
    var check := CheckCache(policy, env, store, key);
    assert NoSynthesis([Connected] + check.trace) && NoWrites([Connected] + check.trace);
  }

  /**
   * A miss whose synthesis and writes all succeed writes exactly the audio at the
   * voice path and the normalised marks at the marks path, after both syntheses.
   */
  lemma MissWritesBothArtifacts(policy: CachePolicy, fingerprint: string -> string, env: Env, store: Store, text: string)
    requires text != "" && !env.initFails
    requires ReportsMiss(policy, env, store, fingerprint(text))
    requires SynthesisSucceeds(env, text)
    requires !env.writeFails(VoicePath(fingerprint(text))) && !env.writeFails(MarksPath(fingerprint(text)))
    ensures var key := fingerprint(text);
      var outcome := Handle(policy, fingerprint, env, store, Params(Some(text)));
      && outcome.store == store[VoicePath(key) := AudioArtifact(env, text)][MarksPath(key) := MarksArtifact(env, text)]
      && Synthesized(VoiceRequest(text)) in outcome.trace
      && Synthesized(MarksRequest(text)) in outcome.trace
      && (outcome.response.statusCode == 200 <==>
            env.presign(LinkRequest(VoicePath(key), LinkExpirySeconds)).Some?
            && env.presign(LinkRequest(MarksPath(key), LinkExpirySeconds)).Some?)
  {
    var key := fingerprint(text);
    var fill := Fill(env, store, text, key);
    var written := store[VoicePath(key) := AudioArtifact(env, text)][MarksPath(key) := MarksArtifact(env, text)];
    assert fill.store == written by {
      assert fill.store.Keys == written.Keys;
    }
    VoicePathNeverMarksPath(key, key);
  }

  /**
   * When either synthesis call fails on a miss, nothing is written, the store is
   * unchanged and the caller gets the uniform 500.
   */
  lemma SynthesisFailureWritesNothing(policy: CachePolicy, fingerprint: string -> string, env: Env, store: Store, text: string)
    requires text != "" && !env.initFails
    requires ReportsMiss(policy, env, store, fingerprint(text))
    requires !SynthesisSucceeds(env, text)
    ensures var outcome := Handle(policy, fingerprint, env, store, Params(Some(text)));
      && outcome.store == store
      && NoWrites(outcome.trace)
      && outcome.response == Response(500, ErrorBody(ServerError))
  {
    var key := fingerprint(text);
    var check := CheckCache(policy, env, store, key);
    assert NoWrites([Connected] + check.trace);
  }

  /**
   * A failing audio synthesis ends the request before the marks synthesis is asked
   * for: nothing is written, the store is unchanged, and on a miss the answer is 500.
   */
  lemma VoiceSynthesisFailureSkipsMarks(policy: CachePolicy, fingerprint: string -> string, env: Env, store: Store, text: string)
    requires text != ""
    requires env.synthesize(VoiceRequest(text)).None?
    ensures var outcome := Handle(policy, fingerprint, env, store, Params(Some(text)));
      && Synthesized(MarksRequest(text)) !in outcome.trace
      && NoWrites(outcome.trace)
      && outcome.store == store
      && (!env.initFails && ReportsMiss(policy, env, store, fingerprint(text)) ==>
            outcome.response == Response(500, ErrorBody(ServerError)))
  {
    var key := fingerprint(text);
    if !env.initFails {
      var check := CheckCache(policy, env, store, key);
      var checked := [Connected] + check.trace;
      assert NoSynthesis(checked) && NoWrites(checked);
    }
  }

  /**
   * A store that fails before any synthesis (connecting, the voice listing, or under
   * the intended check the marks listing) fails the request: nothing is synthesized
   * or written, the store is unchanged and the answer is the uniform 500. A failing
   * check is never read as a hit or a miss.
   */
  lemma StoreFaultsGive500(policy: CachePolicy, fingerprint: string -> string, env: Env, store: Store, text: string)
    requires text != ""
    requires StoreFault(policy, env, store, fingerprint(text))
    ensures var outcome := Handle(policy, fingerprint, env, store, Params(Some(text)));
      && outcome.response == Response(500, ErrorBody(ServerError))
      && outcome.store == store
      && NoSynthesis(outcome.trace)
      && NoWrites(outcome.trace)
  {
  }

  /**
   * A miss whose audio write fails answers 500 and leaves the store as it was: the
   * marks write is never attempted after the failed audio write.
   */
  lemma AudioWriteFailureGives500(policy: CachePolicy, fingerprint: string -> string, env: Env, store: Store, text: string)
    requires text != "" && !env.initFails
    requires ReportsMiss(policy, env, store, fingerprint(text))
    requires SynthesisSucceeds(env, text)
    requires env.writeFails(VoicePath(fingerprint(text)))
    ensures var outcome := Handle(policy, fingerprint, env, store, Params(Some(text)));
      && outcome.response == Response(500, ErrorBody(ServerError))
      && outcome.store == store
  {
  }

  /** Every fault reaches the caller as the same response, whatever its kind. */
  lemma FaultsLookAlike(f1: Fault, f2: Fault)
    ensures Respond(Failure(f1)) == Respond(Failure(f2))
    ensures Respond(Failure(f1)).statusCode == 500
  {
  }

  /**
   * After a successful request, the same text is a hit: a second request issues no
   * synthesis call and no write, and links the same two paths.
   */
  lemma RepeatedRequestHits(policy: CachePolicy, fingerprint: string -> string, env1: Env, env2: Env, store: Store, text: string)
    requires text != ""
    requires Handle(policy, fingerprint, env1, store, Params(Some(text))).response.statusCode == 200
    requires !env2.initFails
    requires !env2.listFails(VoicePath(fingerprint(text)))
    requires policy == BothArtifacts ==> !env2.listFails(MarksPath(fingerprint(text)))
    ensures var first := Handle(policy, fingerprint, env1, store, Params(Some(text)));
      var second := Handle(policy, fingerprint, env2, first.store, Params(Some(text)));
      && second.store == first.store
      && NoSynthesis(second.trace)
      && NoWrites(second.trace)
      && LinksOnlyFor(second.trace, fingerprint(text))
  {
    var key := fingerprint(text);
    var first := Handle(policy, fingerprint, env1, store, Params(Some(text)));
    assert first.store == Serve(policy, fingerprint, env1, store, text).store;
    assert ReportsHit(policy, env2, first.store, key);
    HitIsReadOnly(policy, fingerprint, env2, first.store, text);
  }

  // ---------------------------------------------------------------------------
  // The cache check of line 68
  // ---------------------------------------------------------------------------

  /** As written, the decision depends on the voice artifact alone. */
  lemma VoiceOnlyIgnoresMarks(env: Env, store1: Store, store2: Store, key: string)
    requires VoicePath(key) in store1 <==> VoicePath(key) in store2
    ensures CheckCache(VoiceOnly, env, store1, key).result == CheckCache(VoiceOnly, env, store2, key).result
  {
  }

  /**
   * With every listing answering, the as-written and the intended check disagree
   * exactly on a half pair: voice present, marks absent.
   */
  lemma PoliciesDisagreeOnlyOnHalfPair(env: Env, store: Store, key: string)
    requires !env.listFails(VoicePath(key)) && !env.listFails(MarksPath(key))
    ensures CheckCache(VoiceOnly, env, store, key).result != CheckCache(BothArtifacts, env, store, key).result
      <==> VoicePath(key) in store && MarksPath(key) !in store
  {
  }

  /**
   * The writes of a miss are not atomic: when the marks write fails after the audio
   * write succeeded, a half pair is left behind.
   */
  lemma MarksWriteFailureLeavesHalfPair(policy: CachePolicy, fingerprint: string -> string, env: Env, store: Store, text: string)
    requires text != "" && !env.initFails
    requires ReportsMiss(policy, env, store, fingerprint(text))
    requires SynthesisSucceeds(env, text)
    requires !env.writeFails(VoicePath(fingerprint(text))) && env.writeFails(MarksPath(fingerprint(text)))
    requires MarksPath(fingerprint(text)) !in store
    ensures var key := fingerprint(text);
      var outcome := Handle(policy, fingerprint, env, store, Params(Some(text)));
      && outcome.response == Response(500, ErrorBody(ServerError))
      && VoicePath(key) in outcome.store
      && MarksPath(key) !in outcome.store
  {
    VoicePathNeverMarksPath(fingerprint(text), fingerprint(text));
  }

  /** The stores left by a run of requests for the same text, one environment each. */
  function Replay(policy: CachePolicy, fingerprint: string -> string, envs: seq<Env>, store: Store, text: string): Store
    decreases |envs|
  {
    if |envs| == 0 then store
    else Replay(policy, fingerprint, envs[1..], Handle(policy, fingerprint, envs[0], store, Params(Some(text))).store, text)
  }

  /**
   * As written, a half pair is never repaired: every request for the text, whatever
   * its environment, is treated as a hit or fails before writing, so the store never
   * changes and the marks artifact stays missing.
   */
  lemma {:induction false} HalfPairIsPermanent(fingerprint: string -> string, envs: seq<Env>, store: Store, text: string, key: string)
    requires text != ""
    requires fingerprint(text) == key
    requires VoicePath(key) in store && MarksPath(key) !in store
    ensures Replay(VoiceOnly, fingerprint, envs, store, text) == store
    ensures MarksPath(key) !in Replay(VoiceOnly, fingerprint, envs, store, text)
    decreases |envs|
  {
    if |envs| > 0 {
      var env := envs[0];
      assert Handle(VoiceOnly, fingerprint, env, store, Params(Some(text))).store == store by {
        if !env.initFails && !env.listFails(VoicePath(key)) {
          HitIsReadOnly(VoiceOnly, fingerprint, env, store, text);
        }
      }
      HalfPairIsPermanent(fingerprint, envs[1..], store, text, key);
    }
  }

  /**
   * With the intended check, a half pair is a miss: a request whose calls all succeed
   * synthesizes both artifacts again and completes the pair.
   */
  lemma HalfPairHealsWhenBothChecked(fingerprint: string -> string, env: Env, store: Store, text: string)
    requires text != "" && !env.initFails
    requires var key := fingerprint(text);
      !env.listFails(VoicePath(key)) && !env.listFails(MarksPath(key))
    requires VoicePath(fingerprint(text)) in store && MarksPath(fingerprint(text)) !in store
    requires SynthesisSucceeds(env, text)
    requires !env.writeFails(VoicePath(fingerprint(text))) && !env.writeFails(MarksPath(fingerprint(text)))
    ensures var key := fingerprint(text);
      var outcome := Handle(BothArtifacts, fingerprint, env, store, Params(Some(text)));
      && Synthesized(VoiceRequest(text)) in outcome.trace
      && Synthesized(MarksRequest(text)) in outcome.trace
      && MarksPath(key) in outcome.store
      && outcome.store[MarksPath(key)] == MarksArtifact(env, text)
      && outcome.store[VoicePath(key)] == AudioArtifact(env, text)
  {
    MissWritesBothArtifacts(BothArtifacts, fingerprint, env, store, text);
    VoicePathNeverMarksPath(fingerprint(text), fingerprint(text));
  }

  // ---------------------------------------------------------------------------
  // End to end
  // ---------------------------------------------------------------------------

  /** No call of the environment fails for the artifacts of `text`. */
  ghost predicate Healthy(env: Env, key: string, text: string)
  {
    && !env.initFails
    && !env.listFails(VoicePath(key)) && !env.listFails(MarksPath(key))
    && SynthesisSucceeds(env, text)
    && !env.writeFails(VoicePath(key)) && !env.writeFails(MarksPath(key))
    && env.presign(LinkRequest(VoicePath(key), LinkExpirySeconds)).Some?
    && env.presign(LinkRequest(MarksPath(key), LinkExpirySeconds)).Some?
  }

  /**
   * On an empty store, a request lists the voice path, synthesizes twice, writes
   * twice and issues the two links, in that order, and answers 200.
   */
  lemma ColdRequest(policy: CachePolicy, fingerprint: string -> string, env: Env, text: string)
    requires text != "" && Healthy(env, fingerprint(text), text)
    ensures var key := fingerprint(text);
      var vp := VoicePath(key);
      var mp := MarksPath(key);
      var outcome := Handle(policy, fingerprint, env, map[], Params(Some(text)));
      && outcome.trace == [Connected, Listed(vp),
                           Synthesized(VoiceRequest(text)), Synthesized(MarksRequest(text)),
                           Wrote(vp, AudioArtifact(env, text)), Wrote(mp, MarksArtifact(env, text)),
                           Presigned(LinkRequest(vp, LinkExpirySeconds)), Presigned(LinkRequest(mp, LinkExpirySeconds))]
      && outcome.store == map[vp := AudioArtifact(env, text), mp := MarksArtifact(env, text)]
      && outcome.response.statusCode == 200
  {
    var key := fingerprint(text);
    var vp := VoicePath(key);
    var mp := MarksPath(key);
    assert CheckCache(policy, env, map[], key) == Step(Success(false), map[], [Listed(vp)]);
    FillOnEmptyStore(env, key, text);
    LinksWhenHealthy(env, map[vp := AudioArtifact(env, text), mp := MarksArtifact(env, text)], key, text);
  }

  /** On an empty store, a healthy fill synthesizes twice, then writes both artifacts. */
  lemma FillOnEmptyStore(env: Env, key: string, text: string)
    requires Healthy(env, key, text)
    ensures var vp := VoicePath(key);
      var mp := MarksPath(key);
      var fill := Fill(env, map[], text, key);
      && fill.result.Success?
      && fill.trace == [Synthesized(VoiceRequest(text)), Synthesized(MarksRequest(text)),
                        Wrote(vp, AudioArtifact(env, text)), Wrote(mp, MarksArtifact(env, text))]
      && fill.store == map[vp := AudioArtifact(env, text), mp := MarksArtifact(env, text)]
  {
    VoicePathNeverMarksPath(key, key);
  }

  /** With link issuance working, both links are issued, voice first. */
  lemma LinksWhenHealthy(env: Env, store: Store, key: string, text: string)
    requires Healthy(env, key, text)
    ensures var voiceLink := LinkRequest(VoicePath(key), LinkExpirySeconds);
      var marksLink := LinkRequest(MarksPath(key), LinkExpirySeconds);
      IssueLinks(env, store, key) ==
        Step(Success(Links(env.presign(voiceLink).value, env.presign(marksLink).value)), store,
             [Presigned(voiceLink), Presigned(marksLink)])
  {
  }

  /**
   * When both artifacts are stored, a request only lists the two paths and issues the
   * two links; the store is unchanged and the answer is 200.
   */
  lemma WarmRequest(policy: CachePolicy, fingerprint: string -> string, env: Env, store: Store, text: string)
    requires text != "" && Healthy(env, fingerprint(text), text)
    requires VoicePath(fingerprint(text)) in store && MarksPath(fingerprint(text)) in store
    ensures var key := fingerprint(text);
      var vp := VoicePath(key);
      var mp := MarksPath(key);
      var outcome := Handle(policy, fingerprint, env, store, Params(Some(text)));
      && outcome.trace == [Connected, Listed(vp), Listed(mp),
                           Presigned(LinkRequest(vp, LinkExpirySeconds)), Presigned(LinkRequest(mp, LinkExpirySeconds))]
      && outcome.store == store
      && outcome.response.statusCode == 200
  {
    var key := fingerprint(text);
    assert CheckCache(policy, env, store, key) == Step(Success(true), store, [Listed(VoicePath(key)), Listed(MarksPath(key))]);
    LinksWhenHealthy(env, store, key, text);
  }
}

=== FILE: marks.dfy ===
/**
 * The speech-marks normaliser of the Polly action (actions/polly/index.js, lines 76-79).
 *
 * The synthesis backend returns word timings as a stream of JSON objects, one per
 * line, with no commas and no enclosing brackets. The action turns it into a JSON
 * array by a purely textual edit: every occurrence of `}` newline `{` becomes `},{`
 * (a global regular-expression replace, scanned left to right), and the result is
 * wrapped in `[` and `]`.
 */
module SpeechMarks {

  /** A line join `}` `\n` `{` starts at position `i` of `s`. */
  predicate JoinStartsAt(s: string, i: int)
  {
    0 <= i && i + 3 <= |s| && s[i] == '}' && s[i + 1] == '\n' && s[i + 2] == '{'
  }

  /** `s` contains the line join `}` `\n` `{` somewhere. */
  predicate ContainsLineJoin(s: string)
  {
    exists i :: 0 <= i < |s| && JoinStartsAt(s, i)
  }

  /** The replace step: every line join becomes `},{`, scanning left to right. */
  function ReplaceJoins(s: string): (r: string)
    ensures |r| == |s|
    decreases |s|
  {
    if |s| < 3 then s
    else if JoinStartsAt(s, 0) then "},{" + ReplaceJoins(s[3..])
    else [s[0]] + ReplaceJoins(s[1..])
  }

  /**
   * Reference definition of the replace step, one character at a time: the newline
   * in the middle of a line join becomes a comma, every other character stays.
   */
  function ExpectedAt(s: string, i: int): char
    requires 0 <= i < |s|
  {
    if JoinStartsAt(s, i - 1) then ',' else s[i]
  }

  /** The whole normaliser: replace the joins, then wrap in brackets. */
  function Normalize(raw: string): (doc: string)
    ensures |doc| == |raw| + 2
    ensures doc[0] == '[' && doc[|doc| - 1] == ']'
    ensures forall i :: 0 <= i < |raw| ==> doc[i + 1] == ExpectedAt(raw, i)
    ensures !ContainsLineJoin(doc)
    ensures !ContainsLineJoin(raw) ==> doc == "[" + raw + "]"
  {
    ReplaceJoinsPointwise(raw);
    ReplaceJoinsIdentityIff(raw);
    ReplaceJoinsRemovesJoins(raw);
    WrappingAddsNoJoin(ReplaceJoins(raw));
    "[" + ReplaceJoins(raw) + "]"
  }

  /** The recursive replace agrees with the character-wise reference definition. */
  lemma {:induction false} ReplaceJoinsPointwise(s: string)
    ensures forall i :: 0 <= i < |s| ==> ReplaceJoins(s)[i] == ExpectedAt(s, i)
    decreases |s|
  {
    var r := ReplaceJoins(s);
    if |s| < 3 {
      forall i | 0 <= i < |s| ensures r[i] == ExpectedAt(s, i) {
        assert !JoinStartsAt(s, i - 1);
      }
    } else if JoinStartsAt(s, 0) {
      var t := s[3..];
      ReplaceJoinsPointwise(t);
      forall i | 0 <= i < |s| ensures r[i] == ExpectedAt(s, i) {
        if i >= 3 {
          assert r[i] == ReplaceJoins(t)[i - 3];
          assert JoinStartsAt(t, i - 4) <==> JoinStartsAt(s, i - 1);
        } else if i == 2 {
          assert !JoinStartsAt(s, 1);
        }
      }
    } else {
      var t := s[1..];
      ReplaceJoinsPointwise(t);
      forall i | 0 <= i < |s| ensures r[i] == ExpectedAt(s, i) {
        if i >= 1 {
          assert r[i] == ReplaceJoins(t)[i - 1];
          assert JoinStartsAt(t, i - 2) <==> JoinStartsAt(s, i - 1);
        }
      }
    }
  }

  /** After the replace step no line join is left. */
  lemma ReplaceJoinsRemovesJoins(s: string)
    ensures !ContainsLineJoin(ReplaceJoins(s))
  {
    var r := ReplaceJoins(s);
    ReplaceJoinsPointwise(s);
    forall i | 0 <= i < |r| ensures !JoinStartsAt(r, i) {
      if i + 3 <= |r| && r[i + 1] == '\n' {
        assert r[i + 1] == ExpectedAt(s, i + 1);
        assert !JoinStartsAt(s, i);
        assert r[i] == ExpectedAt(s, i);
        assert r[i + 2] == ExpectedAt(s, i + 2);
      }
    }
  }

  /** The replace step changes its input exactly when the input holds a line join. */
  lemma ReplaceJoinsIdentityIff(s: string)
    ensures ReplaceJoins(s) == s <==> !ContainsLineJoin(s)
  {
    var r := ReplaceJoins(s);
    ReplaceJoinsPointwise(s);
    if ContainsLineJoin(s) {
      var i :| 0 <= i < |s| && JoinStartsAt(s, i);
      assert i + 1 < |s| && s[i + 1] == '\n';
      assert r[i + 1] == ExpectedAt(s, i + 1) == ',';
    } else {
      forall i | 0 <= i < |s| ensures r[i] == s[i] {
        assert !JoinStartsAt(s, i - 1);
      }
    }
  }

  /** Brackets around a join-free text do not create a line join. */
  lemma WrappingAddsNoJoin(body: string)
    requires !ContainsLineJoin(body)
    ensures !ContainsLineJoin("[" + body + "]")
  {
    var doc := "[" + body + "]";
    forall i | 0 <= i < |doc| ensures !JoinStartsAt(doc, i) {
      if 1 <= i && i + 3 <= |doc| - 1 {
        assert doc[i] == body[i - 1] && doc[i + 1] == body[i] && doc[i + 2] == body[i + 1];
        assert !JoinStartsAt(body, i - 1);
      }
    }
  }

  /** Empty input normalises to the empty array. */
  lemma NormalizeEmpty()
    ensures Normalize("") == "[]"
  {
  }

  /** A text with no line join is wrapped in brackets and otherwise left as it is. */
  lemma NormalizeWrapsJoinFreeText(raw: string)
    requires !ContainsLineJoin(raw)
    ensures Normalize(raw) == "[" + raw + "]"
  {
    ReplaceJoinsIdentityIff(raw);
  }

  // ---------------------------------------------------------------------------
  // The backend's actual stream shape: one-line JSON records.
  // ---------------------------------------------------------------------------

  /** One speech-mark record as the backend prints it: a one-line JSON object. */
  predicate IsRecord(rec: string)
  {
    |rec| >= 2 && rec[0] == '{' && rec[|rec| - 1] == '}' && '\n' !in rec
  }

  /** The parts separated by `sep`. */
  function JoinWith(parts: seq<string>, sep: string): string
  {
    if |parts| == 0 then ""
    else if |parts| == 1 then parts[0]
    else parts[0] + sep + JoinWith(parts[1..], sep)
  }

  /** The parts, each followed by a newline. */
  function Lines(parts: seq<string>): string
  {
    if |parts| == 0 then "" else parts[0] + "\n" + Lines(parts[1..])
  }

  /** A prefix with no newline is copied unchanged, provided the rest does not start with one. */
  lemma {:induction false} ReplaceJoinsSkipsPrefix(p: string, t: string)
    requires '\n' !in p
    requires |t| == 0 || t[0] != '\n'
    ensures ReplaceJoins(p + t) == p + ReplaceJoins(t)
    decreases |p|
  {
    if |p| == 0 {
      assert p + t == t;
    } else {
      var q := p[1..];
      SplitHead(p, t);
      ReplaceJoinsSkipsPrefix(q, t);
      ReplaceJoinsCons(p[0], q + t);
      assert [p[0]] + (q + ReplaceJoins(t)) == p + ReplaceJoins(t);
    }
  }

  /** Splitting off the first character of a newline-free prefix. */
  lemma SplitHead(p: string, t: string)
    requires |p| > 0 && '\n' !in p
    requires |t| == 0 || t[0] != '\n'
    ensures '\n' !in p[1..]
    ensures p + t == [p[0]] + (p[1..] + t)
    ensures |p[1..] + t| == 0 || (p[1..] + t)[0] != '\n'
  {
    var q := p[1..];
    forall k | 0 <= k < |q| ensures q[k] != '\n' {
      assert q[k] == p[k + 1];
    }
    if |q| > 0 {
      assert (q + t)[0] == p[1];
    }
  }

  /** A character that does not begin a join is copied, unless a newline follows it. */
  lemma ReplaceJoinsCons(c: char, u: string)
    requires |u| == 0 || u[0] != '\n'
    ensures ReplaceJoins([c] + u) == [c] + ReplaceJoins(u)
  {
    var s := [c] + u;
    assert s[1..] == u;
    if |s| >= 3 {
      assert s[1] == u[0];
      assert !JoinStartsAt(s, 0);
    }
  }

  /** A text that does not start with `}` keeps its first character in front. */
  lemma ReplaceJoinsKeepsHead(t: string)
    requires |t| > 0 && t[0] != '}'
    ensures ReplaceJoins(t) == [t[0]] + ReplaceJoins(t[1..])
  {
  }

  /** A record is its newline-free body followed by the closing brace. */
  lemma RecordEndsWithBrace(rec: string)
    requires IsRecord(rec)
    ensures rec == rec[..|rec| - 1] + "}"
    ensures '\n' !in rec[..|rec| - 1]
  {
    var p := rec[..|rec| - 1];
    forall k | 0 <= k < |p| ensures p[k] != '\n' {
      assert p[k] == rec[k];
    }
  }

  /** The newline between a record and the next object becomes a comma. */
  lemma ReplaceJoinsAtBoundary(rec: string, t: string)
    requires IsRecord(rec)
    requires |t| > 0 && t[0] == '{'
    ensures ReplaceJoins(rec + "\n" + t) == rec + "," + ReplaceJoins(t)
  {
    RecordEndsWithBrace(rec);
    ReplaceJoinsAfterBrace(rec[..|rec| - 1], rec, t);
  }

  /** The same, for a record given as its body and the closing brace. */
  lemma ReplaceJoinsAfterBrace(p: string, rec: string, t: string)
    requires rec == p + "}" && '\n' !in p
    requires |t| > 0 && t[0] == '{'
    ensures ReplaceJoins(rec + "\n" + t) == rec + "," + ReplaceJoins(t)
  {
    var tail := ReplaceJoins(t[1..]);
    SplitAtJoin(p, t);
    ReplaceJoinsAfterBody(p, t);
    ReplaceJoinsKeepsHead(t);
    RejoinAtComma(p, tail);
  }

  /** Regrouping `p + "}" + "\n" + t` around the join; split out to keep the solver cheap. */
  lemma SplitAtJoin(p: string, t: string)
    ensures p + "}" + "\n" + t == p + ("}\n" + t)
  {
  }

  /** Regrouping the replaced join back into `p + "}" + "," + ...`; split out to keep the solver cheap. */
  lemma RejoinAtComma(p: string, tail: string)
    ensures p + ("},{" + tail) == p + "}" + "," + ("{" + tail)
  {
  }

  /** A newline-free body, `}`, a newline and an object: the join is replaced. */
  lemma ReplaceJoinsAfterBody(p: string, t: string)
    requires '\n' !in p
    requires |t| > 0 && t[0] == '{'
    ensures ReplaceJoins(p + ("}\n" + t)) == p + ("},{" + ReplaceJoins(t[1..]))
  {
    ReplaceJoinsSkipsPrefix(p, "}\n" + t);
    ReplaceJoinsOpensJoin(t);
  }

  /** A join at the very front becomes `},{` followed by the replaced rest. */
  lemma ReplaceJoinsOpensJoin(t: string)
    requires |t| > 0 && t[0] == '{'
    ensures ReplaceJoins("}\n" + t) == "},{" + ReplaceJoins(t[1..])
  {
    var u := "}\n" + t;
    assert JoinStartsAt(u, 0);
    assert u[3..] == t[1..];
  }

  /** Records joined by newlines become the same records joined by commas. */
  lemma {:induction false} ReplaceJoinsOnRecords(recs: seq<string>)
    requires |recs| > 0
    requires forall k :: 0 <= k < |recs| ==> IsRecord(recs[k])
    ensures ReplaceJoins(JoinWith(recs, "\n")) == JoinWith(recs, ",")
    decreases |recs|
  {
    if |recs| == 1 {
      ReplaceJoinsSkipsPrefix(recs[0], "");
      assert recs[0] + "" == recs[0];
    } else {
      var rest := recs[1..];
      ReplaceJoinsOnRecords(rest);
      var t := JoinWith(rest, "\n");
      assert t[0] == '{' by {
        if |rest| > 1 { assert t == rest[0] + "\n" + JoinWith(rest[1..], "\n"); }
      }
      ReplaceJoinsAtBoundary(recs[0], t);
    }
  }

  /** Newline-terminated records become comma-separated records and a final newline. */
  lemma {:induction false} ReplaceJoinsOnLines(recs: seq<string>)
    requires |recs| > 0
    requires forall k :: 0 <= k < |recs| ==> IsRecord(recs[k])
    ensures ReplaceJoins(Lines(recs)) == JoinWith(recs, ",") + "\n"
    decreases |recs|
  {
    var rec := recs[0];
    if |recs| == 1 {
      var p := rec[..|rec| - 1];
      RecordEndsWithBrace(rec);
      assert Lines(recs) == p + "}\n" by {
        assert Lines(recs[1..]) == "";
      }
      ReplaceJoinsSkipsPrefix(p, "}\n");
    } else {
      var rest := recs[1..];
      ReplaceJoinsOnLines(rest);
      var t := Lines(rest);
      assert t[0] == '{';
      ReplaceJoinsAtBoundary(rec, t);
      assert Lines(recs) == rec + "\n" + t;
    }
  }

  /** Normalising newline-separated records yields the JSON array of those records. */
  lemma {:induction false} NormalizeRecords(recs: seq<string>)
    requires |recs| > 0
    requires forall k :: 0 <= k < |recs| ==> IsRecord(recs[k])
    ensures Normalize(JoinWith(recs, "\n")) == "[" + JoinWith(recs, ",") + "]"
  {
    ReplaceJoinsOnRecords(recs);
    NormalizeFromReplace(JoinWith(recs, "\n"), JoinWith(recs, ","));
  }

  /** Normalising newline-terminated records yields the array with a newline before `]`. */
  lemma {:induction false} NormalizeRecordLines(recs: seq<string>)
    requires |recs| > 0
    requires forall k :: 0 <= k < |recs| ==> IsRecord(recs[k])
    ensures Normalize(Lines(recs)) == "[" + JoinWith(recs, ",") + "\n]"
  {
    var body := JoinWith(recs, ",");
    ReplaceJoinsOnLines(recs);
    NormalizeFromReplace(Lines(recs), body + "\n");
    NewlineBeforeBracket(body);
  }

  /**
   * Regrouping the trailing newline next to the closing bracket; split out of
   * `NormalizeRecordLines` to keep the solver cheap.
   */
  lemma NewlineBeforeBracket(body: string)
    ensures "[" + (body + "\n") + "]" == "[" + body + "\n]"
  {
  }

  /**
   * The normalised document is the replaced text in brackets. Stated for a given
   * `replaced` so that record lemmas need not unfold `Normalize` in a large context.
   */
  lemma NormalizeFromReplace(raw: string, replaced: string)
    requires ReplaceJoins(raw) == replaced
    ensures Normalize(raw) == "[" + replaced + "]"
  {
  }
}

=== FILE: paths.dfy ===
/**
 * Content-addressed artifact paths (actions/polly/index.js, lines 64-67).
 *
 * The request text is hashed to a hex key, and the two artifacts of the text live
 * at `tts/<key>-voice.mp3` and `tts/<key>-marks.json`.
 */
module ArtifactPaths {
  import opened Results

  const Folder: string := "tts/"
  const VoiceSuffix: string := "-voice.mp3"
  const MarksSuffix: string := "-marks.json"

  /** The two members of an artifact pair. */
  datatype Artifact = Voice | Marks

  function Suffix(kind: Artifact): string
  {
    match kind
    case Voice => VoiceSuffix
    case Marks => MarksSuffix
  }

  /** Where the artifact of the given kind for the given key is stored. */
  function PathOf(kind: Artifact, key: string): string
  {
    Folder + key + Suffix(kind)
  }

  function VoicePath(key: string): string
  {
    PathOf(Voice, key)
  }

  function MarksPath(key: string): string
  {
    PathOf(Marks, key)
  }

  /** `s` starts with `prefix` and ends with `suffix`, the two not overlapping. */
  predicate Framed(s: string, prefix: string, suffix: string)
  {
    |prefix| + |suffix| <= |s| && s[..|prefix|] == prefix && s[|s| - |suffix|..] == suffix
  }

  /** Reads the kind and key back from a path; the inverse of `PathOf`. */
  function ParsePath(path: string): (parsed: Option<(Artifact, string)>)
    ensures parsed.Some? ==> PathOf(parsed.value.0, parsed.value.1) == path
  {
    if Framed(path, Folder, VoiceSuffix) then
      var key := path[|Folder|..|path| - |VoiceSuffix|];
      assert path == path[..|Folder|] + key + path[|path| - |VoiceSuffix|..];
      Some((Voice, key))
    else if Framed(path, Folder, MarksSuffix) then
      var key := path[|Folder|..|path| - |MarksSuffix|];
      assert path == path[..|Folder|] + key + path[|path| - |MarksSuffix|..];
      Some((Marks, key))
    else None
  }

  /** Parsing a derived path gives back its kind and key. */
  lemma ParsePathOf(kind: Artifact, key: string)
    ensures ParsePath(PathOf(kind, key)) == Some((kind, key))
  {
    var path := PathOf(kind, key);
    assert path[..|Folder|] == Folder;
    assert path[|Folder|..|Folder| + |key|] == key;
    match kind
    case Voice =>
      assert path[|path| - |VoiceSuffix|..] == VoiceSuffix;
    case Marks =>
      assert path[|path| - |MarksSuffix|..] == MarksSuffix;
      assert path[|path| - 1] == 'n';
  }

  /** A derived path is the folder, then the key, then the kind's suffix. */
  lemma PathLayout(kind: Artifact, key: string)
    ensures |PathOf(kind, key)| == |Folder| + |key| + |Suffix(kind)|
    ensures Framed(PathOf(kind, key), Folder, Suffix(kind))
    ensures PathOf(kind, key)[|Folder|..|PathOf(kind, key)| - |Suffix(kind)|] == key
  {
    var path := PathOf(kind, key);
    assert path[..|Folder|] == Folder;
    assert path[|Folder|..|path| - |Suffix(kind)|] == key;
  }

  /** Different (kind, key) pairs never share a path. */
  lemma PathOfInjective(kind1: Artifact, key1: string, kind2: Artifact, key2: string)
    ensures PathOf(kind1, key1) == PathOf(kind2, key2) <==> kind1 == kind2 && key1 == key2
  {
    ParsePathOf(kind1, key1);
    ParsePathOf(kind2, key2);
  }

  /** The voice path of a key determines the key. */
  lemma VoicePathInjective(key1: string, key2: string)
    ensures VoicePath(key1) == VoicePath(key2) <==> key1 == key2
  {
    PathOfInjective(Voice, key1, Voice, key2);
  }

  /** The marks path of a key determines the key. */
  lemma MarksPathInjective(key1: string, key2: string)
    ensures MarksPath(key1) == MarksPath(key2) <==> key1 == key2
  {
    PathOfInjective(Marks, key1, Marks, key2);
  }

  /** A voice path is never a marks path, whatever the two keys. */
  lemma VoicePathNeverMarksPath(key1: string, key2: string)
    ensures VoicePath(key1) != MarksPath(key2)
  {
    PathOfInjective(Voice, key1, Marks, key2);
  }
}

=== FILE: results.dfy ===
/** Failure-carrying datatypes shared by the whole model. */
module Results {

  /** A value that an external service may fail to deliver. */
  datatype Option<+T> = None | Some(value: T)

  /** The outcome of a step of the action: a value, or the fault that aborted it. */
  datatype Result<+T, +E> = Success(value: T) | Failure(error: E)
}

=== FILE: store.dfy ===
/**
 * The artifact store as the action sees it: a map from file path to the content
 * stored there. Network access, credentials and real-time link expiry are outside
 * the model.
 */
module ArtifactStore {

  newtype byte = b: int | 0 <= b < 256

  /** What a write puts at a path: the audio stream verbatim, or the marks document. */
  datatype Content = Bytes(data: seq<byte>) | Text(chars: string)

  type Store = map<string, Content>

  /**
   * Listing a file path: the file itself when something is stored there, and
   * nothing otherwise (a missing file is not an error).
   */
  function List(store: Store, path: string): (entries: seq<string>)
    ensures |entries| <= 1
    ensures forall e :: e in entries ==> e == path
    ensures |entries| > 0 <==> path in store
  {
    if path in store then [path] else []
  }

  /** `after` agrees with `before` on every path outside `paths`. */
  ghost predicate SameOutside(before: Store, after: Store, paths: set<string>)
  {
    forall p :: p !in paths ==> (p in before <==> p in after) && (p in before ==> before[p] == after[p])
  }
}

=== FILE: synthesis.dfy ===
/**
 * The two synthesis requests the action sends to the speech backend
 * (actions/polly/index.js, lines 44-60). Client construction and credentials are
 * outside the model; the call itself is an environment parameter of the action.
 */
module Synthesis {

  const VoiceId: string := "Joey"
  const Engine: string := "neural"
  const WordMarks: string := "word"

  datatype OutputFormat = Mp3 | Json

  /**
   * The parameters of one synthesis call. The voice request carries no speech-mark
   * types at all, which is an empty `speechMarkTypes` here.
   */
  datatype SynthesisRequest = SynthesisRequest(
    text: string,
    outputFormat: OutputFormat,
    voiceId: string,
    engine: string,
    speechMarkTypes: seq<string>)

  /** The audio request. */
  function VoiceRequest(text: string): (request: SynthesisRequest)
    ensures request.text == text && request.outputFormat == Mp3
    ensures request.voiceId == "Joey" && request.engine == "neural"
    ensures request.speechMarkTypes == []
  {
    SynthesisRequest(text, Mp3, VoiceId, Engine, [])
  }

  /** The word-timing request. */
  function MarksRequest(text: string): (request: SynthesisRequest)
    ensures request.text == text && request.outputFormat == Json
    ensures request.voiceId == VoiceRequest(text).voiceId && request.engine == VoiceRequest(text).engine
    ensures request.speechMarkTypes == ["word"]
  {
    SynthesisRequest(text, Json, VoiceId, Engine, [WordMarks])
  }

  /**
   * Both requests carry the request text and one voice configuration, so the timings
   * describe the audio; they differ only in the output format and the word filter.
   */
  lemma RequestsShareVoiceConfig(text: string)
    ensures VoiceRequest(text).text == text && MarksRequest(text).text == text
    ensures MarksRequest(text) == VoiceRequest(text).(outputFormat := Json, speechMarkTypes := [WordMarks])
    ensures VoiceRequest(text).voiceId == "Joey" && VoiceRequest(text).engine == "neural"
    ensures VoiceRequest(text) != MarksRequest(text)
  {
  }

  /** The requests for two texts coincide only when the texts do. */
  lemma RequestsDetermineText(text1: string, text2: string)
    ensures VoiceRequest(text1) == VoiceRequest(text2) <==> text1 == text2
    ensures MarksRequest(text1) == MarksRequest(text2) <==> text1 == text2
    ensures VoiceRequest(text1) != MarksRequest(text2)
  {
  }
}
